=== FILE: README.md ===
# Articles core of the magmax-cms content API, in Dafny

This project models the rules of the `articles` application of a small Django
content API. It covers three parts:

- **Save-time derivations** (`articles/models.py`). Before a category or an
  article row is written, `save()` fills in blank fields in a fixed order: the
  slug, the publication date (tied to the status), `meta_title`,
  `meta_description`, `og_title` and `og_description`. Each step reads what
  the earlier steps wrote.
- **Read-only attributes** of an article: `is_published`, `reading_time` and
  `get_seo_image`.
- **Query composition** (`articles/views.py`). This is which rows an
  anonymous caller, an authenticated author or a staff member may see, and
  what the `retrieve`, `published`, `featured`, `my_articles` and
  category-`articles` handlers return. `retrieve` also raises the view count
  of a published article.
- **Response shaping** (`articles/serializers.py`). This covers image URLs,
  the SEO bundle with its `or` fallback chains, a category's
  `article_count`, and `create`, which forces the author to be the caller.

Layout, one module per file:

- `common.dfy` (`Common`): `Option` (Python's `None`), `Result` and the API
  errors (`NotFound`, `NotAuthenticated`, `Conflict`).
- `python.dfy` (`Python`): slicing `s[:n]` (`Prefix`), `str.split()`
  (`Split`, with the separators of `str.isspace`), and `round(n / 200)` with
  round-half-to-even (`RoundPer200`), computed on the quotient and remainder
  in integers.
- `querysets.dfy` (`QuerySets`): `filter`, `order_by('-key')` and the slice
  `[:k]` over a table held as a sequence of rows.
- `models.dfy` (`Models`): the `Category` and `Article` classes, whose
  `Save` methods change their fields step by step. Also the row values
  `CategoryRecord` and `ArticleRecord`. `SaveRules` is the pure function that
  `Article.Save` is proved against, and the lemmas about it state each rule.
  `ArticleTable` is the article table, and its invariant is that slugs are
  unique.
- `serializers.dfy` (`Serializers`) and `views.dfy` (`Views`) hold the
  serializer methods and the view-set handlers.

Collaborators the model cannot see are passed in as parameters:

- Django's `slugify` is a parameter `slugify: string -> string`.
- `timezone.now()` is a parameter `now`.
- `request.build_absolute_uri` is the function inside `Serializers.Request`.
- The requesting user is a `Views.Caller` (`Anonymous` or
  `User(id, isStaff)`), or a plain user id for `create`.

Some of the code's behaviour is worth stating outright, because it is easy
to assume otherwise:

- `save()` does not guarantee a non-empty slug. It stores whatever
  `slugify(title)` returns, which can be empty, so `SaveRules` makes no
  non-emptiness promise.
- `get_seo` uses plain `or` chains and applies no truncation, and `GetSeo`
  follows that. `SeoOfSavedArticle` shows that on rows written by `save()`
  the chains return exactly the stored columns.
- The view-count increment in `retrieve` is a read-modify-write of the
  loaded instance, followed by `save(update_fields=['view_count'])`. It is
  not an atomic database increment.
- That `save()` call still runs every derivation on the in-memory instance.
  Only `view_count` is written, so the response is the derived instance,
  not the stored row. `Views.Shown` states both parts.
  `RetrieveRespondsWithStoredRow` proves the two agree for any row that
  `save()` wrote, because the derivations are idempotent (`SaveIdempotent`).

## Model

| member | source | states |
|---|---|---|
| `Models.Category.Save` | articles/models.py:23-26 | A blank category slug becomes `slugify(name)`. A non-blank slug is kept. The id, name and description do not change. |
| `Models.Article.Save` | articles/models.py:112-138 | After the call, the instance's fields are `SaveRules` of its fields before the call. The six steps run in source order, each on the fields the previous steps left. |
| `Models.Article.DeriveSlug` | articles/models.py:114-115 | Step 1 only: a blank slug becomes `slugify(title)`, and no other field changes. |
| `Models.Article.DerivePublishDate` | articles/models.py:118-123 | Step 2 only: published without a date gets `now`, published with a date keeps it, and draft or archived loses it. |
| `Models.Article.DeriveMetaTitle` | articles/models.py:126-127 | Step 3 only: a blank `meta_title` becomes `title[:60]`. |
| `Models.Article.DeriveMetaDescription` | articles/models.py:129-130 | Step 4 only: a blank `meta_description` becomes `excerpt[:160]` when the excerpt is non-empty. |
| `Models.Article.DeriveOgTitle` | articles/models.py:132-133 | Step 5 only: a blank `og_title` becomes `meta_title[:95]`, reading the value step 3 left. |
| `Models.Article.DeriveOgDescription` | articles/models.py:135-136 | Step 6 only: a blank `og_description` becomes `meta_description[:200]`, reading the value step 4 left. |
| `Models.SaveRules` | articles/models.py:112-136 | No step overwrites a non-blank slug, meta or OG value. Title, excerpt, content, images, author, categories, status, keywords and view count are kept. |
| `Models.SaveSlug` | articles/models.py:114-115 | After save, the slug is `slugify(title)` if it was blank, and otherwise is unchanged. |
| `Models.SavePublishDate` | articles/models.py:118-123 | Published with a null date gets `now`. Published with a date keeps it. Draft or archived always ends with a null date, even if one was set. |
| `Models.SaveMetaFields` | articles/models.py:126-130 | `meta_title` is `title[:60]` exactly when it was blank. `meta_description` becomes `excerpt[:160]` when blank and the excerpt is non-empty, and stays blank when both are blank. |
| `Models.SaveOgChain` | articles/models.py:132-136 | With both titles blank, `og_title` ends as `title[:60]`. With both descriptions blank, `og_description` ends as `excerpt[:160]`. A blank OG field next to a supplied meta value becomes that value cut to 95 or 200. |
| `Models.SaveLengthBounds` | articles/models.py:126-136 | Every derived SEO or OG value fits its column's `max_length` (60, 160, 95, 200). |
| `Models.SaveEndsSaved` | articles/models.py:112-136 | Whatever it starts from, save ends in a `Models.Saved` record. In such a record each derivable field is set or its source is blank, and the date is present exactly when the status is published. |
| `Models.SavedIsFixedPoint` | articles/models.py:112-136 | Save leaves a record unchanged if and only if the record is `Saved`. |
| `Models.SaveIdempotent` | articles/models.py:112-138 | A second save, at any later time, leaves a saved record unchanged. |
| `Models.SaveIsPublished` | articles/models.py:141-143 | After any save, `is_published` (`Models.IsPublished`: status published and a date present) holds exactly when the status is published. |
| `Models.ReadingTime` | articles/models.py:145-150 | `reading_time` is at least 1. It is 1 for at most 100 words of `content.split()`. Above 100 words it is within half a minute of words/200, and on an exact half it is even. |
| `Models.ReadingTimeOfWords` | articles/models.py:146-150 | For any content, described as words between runs of separators (`Python.LayoutOf` gives every string such a layout), `reading_time` is 1 up to 100 words and `round(words/200)` beyond, with ties going to even. |
| `Models.ReadingTimeExamples` | articles/models.py:146-150 | 400 words give 2, one word gives 1, 300 words give 2 and 500 words give 2. |
| `Models.IsPublished` | articles/models.py:141-143 | `is_published` holds when the status is published and a publication date is set. |
| `Models.SeoImage` | articles/models.py:152-154 | `get_seo_image` is `og_image` when present and `featured_image` otherwise. It is absent only when both are. |
| `Python.Split` | articles/models.py:149 | `content.split()` returns non-empty tokens with no whitespace inside, and never more tokens than characters. It returns no tokens exactly when the string is all whitespace. |
| `Python.SplitWord` | articles/models.py:149 | A single word splits into itself. |
| `Python.SplitAfterGap` | articles/models.py:149 | Leading whitespace adds no tokens. |
| `Python.SplitAtSpace` | articles/models.py:149 | Splitting at any whitespace character: the tokens of the whole are those on its left followed by those on its right. With `SplitWord` and `SplitAfterGap` this fixes `split()` on every string. |
| `Python.SplitLayout` | articles/models.py:149 | For words separated by runs of any whitespace, with optional leading and trailing whitespace, `split()` returns exactly the words. |
| `Python.LayoutOf` | articles/models.py:149 | Every string is such a layout of words and whitespace runs. |
| `Python.SplitJoin` | articles/models.py:149 | `split()` undoes joining words with single spaces. This is what fixes the word count of joined content. |
| `Python.RoundPer200` | articles/models.py:150 | `round(n / 200)` is the nearest integer to n/200, and the even one on a tie. |
| `Python.RoundPer200Unique` | articles/models.py:150 | These properties of `round` fix its result uniquely. |
| `Python.Prefix` | articles/models.py:127 | `s[:n]` is the first n items of `s`, or all of `s` when it is shorter. |
| `Python.PrefixOfPrefix` | articles/models.py:132-136 | Cutting `title[:60]` again to 95 (or `excerpt[:160]` to 200) changes nothing. This is why the OG chain ends at the meta cut. |
| `QuerySets.Filter` | articles/views.py:51 | A query-set filter keeps exactly the rows that pass the predicate, as a sub-multiset of the table. |
| `QuerySets.FilterCount` | articles/views.py:51 | Each passing row appears in the filtered rows as many times as in the table, and no other row appears at all. |
| `QuerySets.FilterAll` | articles/views.py:52-60 | A filter that every row passes returns the table unchanged. |
| `QuerySets.FilterSame` | articles/views.py:89-91 | Filters that agree on every row select the same rows. |
| `QuerySets.FilterAppend` | articles/serializers.py:24 | Filtering a table with a row appended is filtering the old table, then the new row. |
| `QuerySets.OrderByDescending` | articles/views.py:106 | `order_by('-key')` returns a permutation of the rows with non-increasing keys. |
| `QuerySets.TopRows` | articles/views.py:106 | The first k rows of an ordered list stay ordered. No row left out has a larger key than a row kept. |
| `Models.RelatedArticles` | articles/serializers.py:24 | `category.articles` (the reverse of the `categories` relation) holds exactly the rows linked to the category. |
| `Models.ArticleTable.constructor` | articles/models.py:40 | The article table starts empty, with its unique-slug invariant holding. |
| `Views.GetQueryset` | articles/views.py:41-60 | `get_queryset` holds exactly the table's rows that pass the three-branch caller test (`Views.InQueryset`), as a sub-multiset of the table. |
| `Views.GetQuerysetIsCanRead` | articles/views.py:41-60 | A row is in the caller's query set exactly when the caller may read it (`Views.CanRead`): it is published, or the caller is staff or its author. |
| `Views.AnonymousSeesPublished` | articles/views.py:49-51 | An anonymous caller's visible set is exactly the published rows. |
| `Views.UserSeesOwnAndPublished` | articles/views.py:53-58 | A non-staff user sees a row exactly when they wrote it or it is published. They never see another user's draft or archived article. |
| `Views.StaffSeesAll` | articles/views.py:52-60 | Staff get the whole table, unfiltered and in order. |
| `Views.FindVisible` | articles/views.py:62-64 | `get_object` finds a row with the slug only inside the caller's query set. It finds none exactly when no row passing the query set's test (`Views.InQueryset`) has that slug. |
| `Views.Retrieve` | articles/views.py:62-72 | A slug that is not visible gives not-found and writes nothing. Otherwise the found row is shown as `Views.Shown` states. |
| `Views.ShowArticle` | articles/views.py:66-71 | A published row is stored with `view_count + 1`. No other column or row changes, and the response is that row after the in-memory save. Other rows are answered as stored, and nothing is written. |
| `Views.Viewed` | articles/views.py:68 | `view_count += 1` raises the count by exactly one and leaves every other column as it was. |
| `Views.SaveKeepsViewCountApart` | articles/views.py:69 | The save run by retrieve derives the same fields whatever the view count is. |
| `Views.RetrieveRespondsWithStoredRow` | articles/views.py:66-71 | For a row that `save()` wrote, the response equals the newly stored row. |
| `Views.PublishedArticles` | articles/views.py:86-99 | `published` lists exactly the published rows, whoever the caller is. |
| `Views.PublishedIsAnonymousView` | articles/views.py:89-91 | `published` equals the anonymous query set, and lies inside every caller's query set. |
| `Views.Featured` | articles/views.py:101-109 | `featured` has min(5, number published) rows. All are published, in non-increasing view count, drawn from the published rows. No published article left out has more views than one listed. |
| `Views.MyArticles` | articles/views.py:111-122 | An anonymous caller is refused with not-authenticated. Otherwise the result is exactly the caller's own articles, of any status, and all of them lie inside the caller's query set. |
| `Views.FindCategory` | articles/views.py:144 | The category's `get_object` finds a category with the slug, or none exactly when no category has it. |
| `Views.CategoryArticles` | articles/views.py:141-153 | An unknown category slug gives not-found. Otherwise the result is exactly the published articles linked to that category. |
| `Serializers.FeaturedImageUrl` | articles/serializers.py:74-81 | No image gives none. With a request in the context, the result is the absolute URI of the image URL. Otherwise it is the raw image URL. The list serializer's copy at lines 42-49 is identical. |
| `Serializers.ImageUrl` | articles/serializers.py:74-81 | The rule both image fields share: no image gives none, a request gives the absolute URI, and otherwise the raw URL. |
| `Serializers.OgImageUrl` | articles/serializers.py:83-91 | The SEO image is resolved by the same three-way rule. It is none only when both images are absent, and it is the featured image's URL when there is no OG image. |
| `Serializers.GetSeo` | articles/serializers.py:93-102 | `meta_title` is the first non-empty of (meta_title, title). `meta_description` is the first non-empty of (meta_description, excerpt). `og_title` is the first non-empty of (og_title, meta_title, title). `og_description` is the first non-empty of (og_description, meta_description, excerpt). Keywords pass through, and the image is `og_image_url`. |
| `Serializers.FirstNonEmpty` | articles/serializers.py:96-100 | The reference meaning of an `or` chain: the first non-empty string, empty only when all are. |
| `Serializers.SeoOfSavedArticle` | articles/serializers.py:93-102 | On a record that `save()` produced, the bundle's four texts are the stored columns. |
| `Serializers.ArticleCount` | articles/serializers.py:22-24 | `article_count` never exceeds the number of articles linked to the category. It is 0 exactly when no row is both published and in the category. |
| `Serializers.ArticleCountAppend` | articles/serializers.py:22-24 | A new row raises `article_count` by one exactly when it is published and in the category. Drafts and archived articles never count. |
| `Serializers.CreatedRecord` | articles/serializers.py:120-126 | The created row's author is the requesting user, whatever the payload held. Its categories are exactly the supplied ones, or none. Its view count is 0, and its slug and `is_published` follow the save rules. |
| `Serializers.Create` | articles/serializers.py:120-126 | A slug already in the table fails with a conflict and writes nothing. Otherwise exactly the `CreatedRecord` row is appended, and slugs stay unique. |

## Left out

- The article `update`, `partial_update` and `destroy` handlers are not
  modelled. They are the framework's defaults: they look the row up through
  `get_object`, so through `get_queryset` (see `GetQueryset`), and then call
  `save()` or delete it. A non-staff user may therefore modify or delete
  their own articles and every published one, and staff may modify or
  delete any article. Another user's draft or archived article is not
  found.
- The category CRUD handlers are not modelled either. `CategoryViewSet` has
  no visibility rule, so any authenticated user may modify any category.
- Query parameters are not modelled. The framework's filter back ends
  (`?status=`, `?author=`, `?categories=`, `?published_date=`, `?search=`,
  `?ordering=`) narrow and reorder not only the list endpoint. `get_object`
  runs them too. So in `retrieve`, `?status=draft` or `?search=` can turn a
  visible slug into not-found. In the category `articles` action, `?search=`
  narrows the category lookup. `FindVisible`, `FindCategory`, `Retrieve` and
  `CategoryArticles` model requests that carry no query parameters. Only
  the visibility filter under the back ends (`GetQueryset`) is modelled.
- Pagination is not modelled. `published`, `my_articles` and the category
  `articles` action hand their lists to the paginator.
  `PublishedArticles`, `MyArticles` and `CategoryArticles` return the whole
  list, which is what those handlers return when pagination is off.
- The default ordering `-published_date` is not modelled, because where nulls
  sort depends on the database. Article row ids and the
  `created_at`/`updated_at` timestamps are left out too. Category ids are
  modelled, because the category relation keys on them.
- `Views.Featured`: when view counts tie, the order among equal rows is the
  database's. The model uses a stable order and promises only ordering,
  membership and the top-five property.
- `slugify`, `timezone.now` and `build_absolute_uri` are parameters. Their
  own behaviour (Unicode normalisation, URL joining) is not part of this
  model.
- `Models.ReadingTime`: `words / 200` is computed exactly rather than as a
  floating-point quotient. The two agree for any realistic word count: below
  about 2^40 words, a float is never off by enough to cross a rounding
  boundary.
- Database constraints other than the unique article slug are not modelled.
  That means unique category names, `max_length` validation and the
  existence of referenced users, categories and images. Only the slug
  conflict on `create` is an error path.
- The cascade (author deleted) and set-null (image deleted) referential
  actions are not modelled. Django's ORM performs them when a user or an
  image is deleted. No code of this application does.
- Concurrent retrievals can lose view-count updates. The model covers one
  request at a time.
- The permission classes are represented only by the not-authenticated answer
  of `my_articles`. `Create` takes the id of the user the permission class
  has already authenticated.
- The field selection of the list and detail serializers, and the author
  serializer, are not modelled. Only the computed fields listed above are.
- `articles/admin.py` (the admin forms; its `save_model` author rule repeats
  `create`) and the URL configuration are not part of this model.

=== FILE: common.dfy ===
/** Values shared by every part of the model: optional values (Python's None)
    and the error outcomes the API can answer with. */
module Common {

  /** A nullable value: `None` stands for Python's `None`. */
  datatype Option<+T> = None | Some(value: T)

  /** The error answers of the API that the model distinguishes. */
  datatype ApiError =
    | NotFound          // Http404 from get_object
    | NotAuthenticated  // rejected by the IsAuthenticated permission
    | Conflict          // the slug is already taken: either the unique-slug
                        // validator rejects a supplied slug before create
                        // runs, or the database refuses a derived one

  /** Either a value or the error the request ends with. */
  datatype Result<+T> = Ok(value: T) | Err(error: ApiError)
}

=== FILE: models.dfy ===
/** The two entities of the content API, Category and Article: their fields,
    the derivations each `save()` performs before the row is written, and the
    read-only attributes of an article (is_published, reading_time,
    get_seo_image). */
module Models {
  import opened Common
  import opened Python
  import QuerySets

  type UserId = nat
  type CategoryId = nat
  /** A point in time as handed out by the clock; the model never inspects it. */
  type Timestamp = int

  /** An image asset kept by the external asset manager; only its URL is used. */
  datatype Image = Image(url: string)

  datatype Status = Draft | Published | Archived

  /** The value of one category row (timestamps left out). */
  datatype CategoryRecord = CategoryRecord(id: CategoryId, name: string, slug: string, description: string)

  /** A category in memory. */
  class Category {
    var id: CategoryId
    var name: string
    var slug: string
    var description: string

    /** `Category.save()`: a blank slug is derived from the name, any other
        slug is kept; nothing else changes. */
    method Save(slugify: string -> string)
      modifies this
      ensures old(slug) == "" ==> slug == slugify(old(name))
      ensures old(slug) != "" ==> slug == old(slug)
      ensures id == old(id) && name == old(name) && description == old(description)
    {
      if slug == "" {
        slug := slugify(name);
      }
    }
  }

  /** The value of one article row (timestamps and the row id left out). */
  datatype ArticleRecord = ArticleRecord(
    title: string,
    slug: string,
    excerpt: string,
    content: string,
    featuredImage: Option<Image>,
    author: UserId,
    categories: set<CategoryId>,
    status: Status,
    publishedDate: Option<Timestamp>,
    metaTitle: string,
    metaDescription: string,
    metaKeywords: string,
    ogTitle: string,
    ogDescription: string,
    ogImage: Option<Image>,
    viewCount: nat)

  // The six derivations of Article.save, one function per step, in the order
  // save() runs them; each step reads the record the previous one produced.

  function SlugRule(a: ArticleRecord, slugify: string -> string): (r: ArticleRecord)
    ensures r == a.(slug := r.slug)
  {
    if a.slug == "" then a.(slug := slugify(a.title)) else a
  }

  function PublishDateRule(a: ArticleRecord, now: Timestamp): (r: ArticleRecord)
    ensures r == a.(publishedDate := r.publishedDate)
  {
    if a.status == Published && a.publishedDate.None? then a.(publishedDate := Some(now))
    else if a.status != Published then a.(publishedDate := None)
    else a
  }

  function MetaTitleRule(a: ArticleRecord): (r: ArticleRecord)
    ensures r == a.(metaTitle := r.metaTitle)
  {
    if a.metaTitle == "" then a.(metaTitle := Prefix(a.title, 60)) else a
  }

  function MetaDescriptionRule(a: ArticleRecord): (r: ArticleRecord)
    ensures r == a.(metaDescription := r.metaDescription)
  {
    if a.metaDescription == "" && a.excerpt != "" then a.(metaDescription := Prefix(a.excerpt, 160)) else a
  }

  function OgTitleRule(a: ArticleRecord): (r: ArticleRecord)
    ensures r == a.(ogTitle := r.ogTitle)
  {
    if a.ogTitle == "" then a.(ogTitle := Prefix(a.metaTitle, 95)) else a
  }

  function OgDescriptionRule(a: ArticleRecord): (r: ArticleRecord)
    ensures r == a.(ogDescription := r.ogDescription)
  {
    if a.ogDescription == "" then a.(ogDescription := Prefix(a.metaDescription, 200)) else a
  }

  /** The record `Article.save()` writes, given the record before the call,
      the current time and the slugify function. No step overwrites a value
      that is not blank, and the fields save() does not derive are kept. */
  function SaveRules(a: ArticleRecord, now: Timestamp, slugify: string -> string): (r: ArticleRecord)
    ensures a.slug != "" ==> r.slug == a.slug
    ensures a.metaTitle != "" ==> r.metaTitle == a.metaTitle
    ensures a.metaDescription != "" ==> r.metaDescription == a.metaDescription
    ensures a.ogTitle != "" ==> r.ogTitle == a.ogTitle
    ensures a.ogDescription != "" ==> r.ogDescription == a.ogDescription
    ensures r.title == a.title && r.excerpt == a.excerpt && r.content == a.content
    ensures r.featuredImage == a.featuredImage && r.ogImage == a.ogImage
    ensures r.author == a.author && r.categories == a.categories && r.status == a.status
    ensures r.metaKeywords == a.metaKeywords && r.viewCount == a.viewCount
  {
    OgDescriptionRule(OgTitleRule(MetaDescriptionRule(MetaTitleRule(
      PublishDateRule(SlugRule(a, slugify), now)))))
  }

  /** A blank slug becomes slugify(title); a slug already set is never re-derived. */
  lemma SaveSlug(a: ArticleRecord, now: Timestamp, slugify: string -> string)
    ensures SaveRules(a, now, slugify).slug == if a.slug == "" then slugify(a.title) else a.slug
  {
  }

  /** Publishing stamps a missing date with `now` and keeps an existing one;
      a draft or archived article always loses its date. */
  lemma SavePublishDate(a: ArticleRecord, now: Timestamp, slugify: string -> string)
    ensures a.status == Published && a.publishedDate.None? ==>
      SaveRules(a, now, slugify).publishedDate == Some(now)
    ensures a.status == Published && a.publishedDate.Some? ==>
      SaveRules(a, now, slugify).publishedDate == a.publishedDate
    ensures a.status != Published ==> SaveRules(a, now, slugify).publishedDate == None
  {
  }

  /** meta_title falls back to title[:60] exactly when blank; meta_description
      to excerpt[:160] only when blank and the excerpt is not, and otherwise a
      blank meta_description stays blank. */
  lemma SaveMetaFields(a: ArticleRecord, now: Timestamp, slugify: string -> string)
    ensures SaveRules(a, now, slugify).metaTitle ==
      if a.metaTitle == "" then Prefix(a.title, 60) else a.metaTitle
    ensures a.metaDescription == "" && a.excerpt != "" ==>
      SaveRules(a, now, slugify).metaDescription == Prefix(a.excerpt, 160)
    ensures a.metaDescription == "" && a.excerpt == "" ==>
      SaveRules(a, now, slugify).metaDescription == ""
  {
  }

  /** The Open Graph fields see the meta fields as the same save filled them:
      with both titles blank og_title is title[:60], with both descriptions
      blank og_description is excerpt[:160]; otherwise the blank OG field is
      cut from the supplied meta value. */
  lemma SaveOgChain(a: ArticleRecord, now: Timestamp, slugify: string -> string)
    ensures a.ogTitle == "" && a.metaTitle == "" ==>
      SaveRules(a, now, slugify).ogTitle == Prefix(a.title, 60)
    ensures a.ogTitle == "" && a.metaTitle != "" ==>
      SaveRules(a, now, slugify).ogTitle == Prefix(a.metaTitle, 95)
    ensures a.ogDescription == "" && a.metaDescription == "" ==>
      SaveRules(a, now, slugify).ogDescription == Prefix(a.excerpt, 160)
    ensures a.ogDescription == "" && a.metaDescription != "" ==>
      SaveRules(a, now, slugify).ogDescription == Prefix(a.metaDescription, 200)
  {
    PrefixOfPrefix(a.title, 60, 95);
    PrefixOfPrefix(a.excerpt, 160, 200);
  }

  /** Every value save() derives fits the column's max_length. */
  lemma SaveLengthBounds(a: ArticleRecord, now: Timestamp, slugify: string -> string)
    ensures a.metaTitle == "" ==> |SaveRules(a, now, slugify).metaTitle| <= 60
    ensures a.metaDescription == "" ==> |SaveRules(a, now, slugify).metaDescription| <= 160
    ensures a.ogTitle == "" ==> |SaveRules(a, now, slugify).ogTitle| <= 95
    ensures a.ogDescription == "" ==> |SaveRules(a, now, slugify).ogDescription| <= 200
  {
  }

  /** A record every save() step leaves as it is: each derivable field is
      set, or its source is blank too, and the date matches the status. */
  predicate Saved(b: ArticleRecord, slugify: string -> string)
  {
    && (b.slug != "" || slugify(b.title) == "")
    && (b.status == Published <==> b.publishedDate.Some?)
    && (b.metaTitle != "" || b.title == "")
    && (b.metaDescription != "" || b.excerpt == "")
    && (b.ogTitle != "" || b.metaTitle == "")
    && (b.ogDescription != "" || b.metaDescription == "")
  }

  /** Whatever it starts from, save() ends in a Saved record. */
  lemma SaveEndsSaved(a: ArticleRecord, now: Timestamp, slugify: string -> string)
    ensures Saved(SaveRules(a, now, slugify), slugify)
  {
    SaveSlug(a, now, slugify);
    SavePublishDate(a, now, slugify);
    SaveMetaFields(a, now, slugify);
  }

  /** The records save() leaves unchanged are exactly the Saved ones. */
  lemma SavedIsFixedPoint(b: ArticleRecord, now: Timestamp, slugify: string -> string)
    ensures SaveRules(b, now, slugify) == b <==> Saved(b, slugify)
  {
    if Saved(b, slugify) {
      var b1 := SlugRule(b, slugify);
      assert b1 == b;
      var b2 := PublishDateRule(b1, now);
      assert b2 == b;
      var b3 := MetaTitleRule(b2);
      assert b3 == b;
      var b4 := MetaDescriptionRule(b3);
      assert b4 == b;
      var b5 := OgTitleRule(b4);
      assert b5 == b;
    } else if SaveRules(b, now, slugify) == b {
      SaveEndsSaved(b, now, slugify);
    }
  }

  /** Saving twice gives the record saving once gives, whatever the clock says
      the second time. */
  lemma SaveIdempotent(a: ArticleRecord, now: Timestamp, later: Timestamp, slugify: string -> string)
    ensures SaveRules(SaveRules(a, now, slugify), later, slugify) == SaveRules(a, now, slugify)
  {
    SaveEndsSaved(a, now, slugify);
    SavedIsFixedPoint(SaveRules(a, now, slugify), later, slugify);
  }

  /** `is_published`: the status says so and there is a publication date. */
  predicate IsPublished(a: ArticleRecord)
  {
    a.status == Published && a.publishedDate.Some?
  }

  /** After any save, is_published agrees with the status alone. */
  lemma SaveIsPublished(a: ArticleRecord, now: Timestamp, slugify: string -> string)
    ensures IsPublished(SaveRules(a, now, slugify)) <==> a.status == Published
  {
  }

  /** `reading_time`: minutes at 200 words a minute, rounded half to even, at
      least one. Words are the tokens of `content.split()`. */
  function ReadingTime(a: ArticleRecord): (minutes: nat)
    ensures minutes >= 1
    ensures |Split(a.content)| <= 100 ==> minutes == 1
    ensures |Split(a.content)| > 100 ==>
      var w := |Split(a.content)|;
      && 2 * w <= 400 * minutes + 200 && 400 * minutes <= 2 * w + 200
      && ((2 * w == 400 * minutes + 200 || 400 * minutes == 2 * w + 200) ==> minutes % 2 == 0)
  {
    var rounded := RoundPer200(|Split(a.content)|);
    if rounded < 1 then 1 else rounded
  }

  /** Whatever the separators around and between the words (spaces, tabs,
      newlines, runs of them, leading or trailing), the reading time is one
      minute up to 100 words and the word count over 200, rounded half to
      even, beyond. `Python.LayoutOf` gives every content such a layout. */
  lemma ReadingTimeOfWords(a: ArticleRecord, lead: string, words: seq<string>, gaps: seq<string>)
    requires IsLayout(lead, words, gaps)
    requires a.content == Layout(lead, words, gaps)
    ensures |words| <= 100 ==> ReadingTime(a) == 1
    ensures |words| > 100 ==> ReadingTime(a) == RoundPer200(|words|)
  {
    SplitLayout(lead, words, gaps);
    if |words| > 100 {
      RoundPer200Unique(|words|, ReadingTime(a));
    }
  }

  /** 400 words read in two minutes, a single word in one, 300 words
      (1.5 minutes) round up to two and 500 words (2.5 minutes) down to two. */
  lemma ReadingTimeExamples(a: ArticleRecord)
    ensures a.content == Join(seq(400, _ => "word")) ==> ReadingTime(a) == 2
    ensures a.content == "word" ==> ReadingTime(a) == 1
    ensures a.content == Join(seq(300, _ => "word")) ==> ReadingTime(a) == 2
    ensures a.content == Join(seq(500, _ => "word")) ==> ReadingTime(a) == 2
  {
    assert IsWord("word");
    if a.content == Join(seq(400, _ => "word")) {
      SplitJoin(seq(400, _ => "word"));
    }
    if a.content == "word" {
      SplitWord("word");
    }
    if a.content == Join(seq(300, _ => "word")) {
      SplitJoin(seq(300, _ => "word"));
    }
    if a.content == Join(seq(500, _ => "word")) {
      SplitJoin(seq(500, _ => "word"));
    }
  }

  /** `get_seo_image()`: the Open Graph image, else the featured image; absent
      only when both are. */
  function SeoImage(a: ArticleRecord): (image: Option<Image>)
    ensures image.None? <==> a.ogImage.None? && a.featuredImage.None?
    ensures a.ogImage.Some? ==> image == a.ogImage
    ensures a.ogImage.None? ==> image == a.featuredImage
  {
    if a.ogImage.Some? then a.ogImage else a.featuredImage
  }

  /** An article in memory: the instance `save()` works on. */
  class Article {
    var title: string
    var slug: string
    var excerpt: string
    var content: string
    var featuredImage: Option<Image>
    var author: UserId
    var categories: set<CategoryId>
    var status: Status
    var publishedDate: Option<Timestamp>
    var metaTitle: string
    var metaDescription: string
    var metaKeywords: string
    var ogTitle: string
    var ogDescription: string
    var ogImage: Option<Image>
    var viewCount: nat

    /** The instance's field values. */
    function Record(): ArticleRecord
      reads this
    {
      ArticleRecord(title, slug, excerpt, content, featuredImage, author, categories,
        status, publishedDate, metaTitle, metaDescription, metaKeywords,
        ogTitle, ogDescription, ogImage, viewCount)
    }

    /** An instance holding the values of `a`, as a row is loaded. */
    constructor FromRecord(a: ArticleRecord)
      ensures Record() == a
    {
      title, slug, excerpt, content := a.title, a.slug, a.excerpt, a.content;
      featuredImage, author, categories := a.featuredImage, a.author, a.categories;
      status, publishedDate := a.status, a.publishedDate;
      metaTitle, metaDescription, metaKeywords := a.metaTitle, a.metaDescription, a.metaKeywords;
      ogTitle, ogDescription, ogImage := a.ogTitle, a.ogDescription, a.ogImage;
      viewCount := a.viewCount;
    }

    /** `Article.save()`: the derivations, in order, each on the fields as the
        previous steps left them. Writing the row is the caller's business. */
    method Save(now: Timestamp, slugify: string -> string)
      modifies this
      ensures Record() == SaveRules(old(Record()), now, slugify)
    {
      DeriveSlug(slugify);
      DerivePublishDate(now);
      DeriveMetaTitle();
      DeriveMetaDescription();
      DeriveOgTitle();
      DeriveOgDescription();
    }

    /** Step 1: a blank slug becomes slugify(title). */
    method DeriveSlug(slugify: string -> string)
      modifies this
      ensures Record() == SlugRule(old(Record()), slugify)
    {
      if slug == "" {
        slug := slugify(title);
      }
    }

    /** Step 2: published without a date gets `now`; any other status loses its date. */
    method DerivePublishDate(now: Timestamp)
      modifies this
      ensures Record() == PublishDateRule(old(Record()), now)
    {
      if status == Published && publishedDate.None? {
        publishedDate := Some(now);
      } else if status != Published {
        publishedDate := None;
      }
    }

    /** Step 3: a blank meta_title becomes title[:60]. */
    method DeriveMetaTitle()
      modifies this
      ensures Record() == MetaTitleRule(old(Record()))
    {
      if metaTitle == "" {
        metaTitle := Prefix(title, 60);
      }
    }

    /** Step 4: a blank meta_description becomes excerpt[:160] when there is an excerpt. */
    method DeriveMetaDescription()
      modifies this
      ensures Record() == MetaDescriptionRule(old(Record()))
    {
      if metaDescription == "" && excerpt != "" {
        metaDescription := Prefix(excerpt, 160);
      }
    }

    /** Step 5: a blank og_title becomes meta_title[:95], as step 3 left it. */
    method DeriveOgTitle()
      modifies this
      ensures Record() == OgTitleRule(old(Record()))
    {
      if ogTitle == "" {
        ogTitle := Prefix(metaTitle, 95);
      }
    }

    /** Step 6: a blank og_description becomes meta_description[:200], as step 4 left it. */
    method DeriveOgDescription()
      modifies this
      ensures Record() == OgDescriptionRule(old(Record()))
    {
      if ogDescription == "" {
        ogDescription := Prefix(metaDescription, 200);
      }
    }
  }

  /** The status column reads 'published' (the date is not consulted). */
  predicate HasPublishedStatus(a: ArticleRecord)
  {
    a.status == Published
  }

  /** The view count, as the key `order_by('-view_count')` sorts on. */
  function ViewCount(a: ArticleRecord): int
  {
    a.viewCount
  }

  /** `category.articles`: the rows linked to the category through the
      many-to-many relation. */
  function RelatedArticles(category: CategoryId, rows: seq<ArticleRecord>): (r: seq<ArticleRecord>)
    ensures forall a :: a in r <==> a in rows && category in a.categories
  {
    QuerySets.Filter(rows, (a: ArticleRecord) => category in a.categories)
  }

  /** No two rows share a slug (the column is unique). */
  predicate SlugsUnique(rows: seq<ArticleRecord>)
  {
    forall i, j :: 0 <= i < j < |rows| ==> rows[i].slug != rows[j].slug
  }

  /** The article table, `Article.objects`, as the rows it holds. */
  class ArticleTable {
    var rows: seq<ArticleRecord>

    ghost predicate Valid()
      reads this
    {
      SlugsUnique(rows)
    }

    constructor ()
      ensures Valid() && rows == []
    {
      rows := [];
    }
  }
}

=== FILE: python.dfy ===
/** The few Python built-ins the core relies on, with their Python meaning:
    slicing `s[:n]`, `str.split()` without arguments and `round()` applied to a
    quotient by 200. */
module Python {

  /** `s[:n]` for a non-negative `n`: the first `n` items, or all of `s` when it is shorter. */
  function Prefix<T>(s: seq<T>, n: nat): (r: seq<T>)
    ensures |r| == if |s| < n then |s| else n
    ensures r <= s
  {
    s[..if |s| < n then |s| else n]
  }

  /** Cutting to `m` and then to a length at least `m` changes nothing more. */
  lemma PrefixOfPrefix<T>(s: seq<T>, m: nat, n: nat)
    requires m <= n
    ensures Prefix(Prefix(s, m), n) == Prefix(s, m)
  {
  }

  /** The characters that `str.split()` treats as separators (`str.isspace`). */
  predicate IsSpace(c: char)
  {
    var n := c as int;
    || 0x09 <= n <= 0x0D || 0x1C <= n <= 0x20
    || n == 0x85 || n == 0xA0 || n == 0x1680
    || 0x2000 <= n <= 0x200A || n == 0x2028 || n == 0x2029
    || n == 0x202F || n == 0x205F || n == 0x3000
  }

  /** A token `str.split()` can return: non-empty, with no separator inside. */
  predicate IsWord(w: string)
  {
    w != [] && forall i :: 0 <= i < |w| ==> !IsSpace(w[i])
  }

  /** A run of separators, possibly empty. */
  predicate IsGap(g: string)
  {
    forall i :: 0 <= i < |g| ==> IsSpace(g[i])
  }

  /** Length of the longest prefix of `s` that holds no separator. */
  function WordLength(s: string): (n: nat)
    ensures n <= |s|
    ensures forall i :: 0 <= i < n ==> !IsSpace(s[i])
    ensures n < |s| ==> IsSpace(s[n])
  {
    if s == [] || IsSpace(s[0]) then 0 else 1 + WordLength(s[1..])
  }

  /** `s.split()`: the maximal runs of non-separator characters of `s`, in order.
      Leading, trailing and repeated separators produce no empty tokens, and
      only a string of separators alone splits into nothing. */
  function Split(s: string): (words: seq<string>)
    ensures forall w :: w in words ==> IsWord(w)
    ensures |words| <= |s|
    ensures words == [] <==> IsGap(s)
    decreases |s|
  {
    if s == [] then []
    else if IsSpace(s[0]) then Split(s[1..])
    else
      var n := WordLength(s);
      [s[..n]] + Split(s[n..])
  }

  /** `" ".join(words)`. */
  function Join(words: seq<string>): string
  {
    if words == [] then ""
    else if |words| == 1 then words[0]
    else words[0] + " " + Join(words[1..])
  }

  /** A word followed by nothing or by a separator splits off as one token. */
  lemma SplitWordBefore(w: string, rest: string)
    requires IsWord(w)
    requires rest == [] || IsSpace(rest[0])
    ensures Split(w + rest) == [w] + Split(rest)
  {
    var s := w + rest;
    assert s[0] == w[0];
    assert |w| < |s| ==> s[|w|] == rest[0];
    assert forall i :: 0 <= i < |w| ==> s[i] == w[i];
    assert WordLength(s) == |w|;
    assert s[..|w|] == w;
    assert s[|w|..] == rest;
  }

  /** A single word splits into itself. */
  lemma SplitWord(w: string)
    requires IsWord(w)
    ensures Split(w) == [w]
  {
    SplitWordBefore(w, []);
    assert w + [] == w;
  }

  /** Separators in front of a string add no tokens. */
  lemma {:induction false} SplitAfterGap(g: string, s: string)
    requires IsGap(g)
    ensures Split(g + s) == Split(s)
    decreases |g|
  {
    if g == [] {
      assert g + s == s;
    } else {
      assert (g + s)[0] == g[0];
      assert (g + s)[1..] == g[1..] + s;
      SplitAfterGap(g[1..], s);
    }
  }

  /** A separator after `s` ends its first word no later than `s` does. */
  lemma WordLengthBeforeSpace(s: string, c: char, t: string)
    requires IsSpace(c)
    ensures WordLength(s + [c] + t) == WordLength(s)
  {
    var whole := s + [c] + t;
    assert forall i :: 0 <= i < |s| ==> whole[i] == s[i];
    assert whole[|s|] == c;
  }

  /** Splitting at any separator: the tokens of the whole are the tokens on
      its left followed by the tokens on its right. */
  lemma {:induction false} SplitAtSpace(s: string, c: char, t: string)
    requires IsSpace(c)
    ensures Split(s + [c] + t) == Split(s) + Split(t)
    decreases |s|
  {
    var whole := s + [c] + t;
    if s == [] {
      assert whole == [c] + t;
      assert whole[1..] == t;
    } else if IsSpace(s[0]) {
      assert whole[0] == s[0];
      assert whole[1..] == s[1..] + [c] + t;
      SplitAtSpace(s[1..], c, t);
    } else {
      var n := WordLength(s);
      WordLengthBeforeSpace(s, c, t);
      assert whole[..n] == s[..n];
      assert whole[n..] == s[n..] + [c] + t;
      SplitAtSpace(s[n..], c, t);
    }
  }

  /** `str.split()` undoes `" ".join` on genuine words. */
  lemma {:induction false} SplitJoin(words: seq<string>)
    requires forall w :: w in words ==> IsWord(w)
    ensures Split(Join(words)) == words
    decreases |words|
  {
    if words == [] {
    } else if |words| == 1 {
      SplitWord(words[0]);
    } else {
      SplitAtSpace(words[0], ' ', Join(words[1..]));
      SplitWord(words[0]);
      SplitJoin(words[1..]);
      assert [words[0]] + words[1..] == words;
    }
  }

  /** A string laid out as a leading run of separators, then each word
      followed by its run of separators. Runs between two words are
      non-empty; the leading and the final run may be empty. */
  predicate IsLayout(lead: string, words: seq<string>, gaps: seq<string>)
  {
    && IsGap(lead)
    && |gaps| == |words|
    && (forall i :: 0 <= i < |words| ==> IsWord(words[i]) && IsGap(gaps[i]))
    && (forall i :: 0 <= i < |words| - 1 ==> gaps[i] != [])
  }

  /** The string a layout spells. */
  function Layout(lead: string, words: seq<string>, gaps: seq<string>): string
    requires |gaps| == |words|
    decreases |words|
  {
    if words == [] then lead
    else lead + words[0] + Layout(gaps[0], words[1..], gaps[1..])
  }

  /** A layout whose leading run is non-empty, or that has no words, is empty
      or starts with a separator. */
  lemma LayoutStartsWithGap(lead: string, words: seq<string>, gaps: seq<string>)
    requires IsLayout(lead, words, gaps)
    requires lead != [] || words == []
    ensures var s := Layout(lead, words, gaps); s == [] || IsSpace(s[0])
  {
    if words != [] {
      assert Layout(lead, words, gaps)[0] == lead[0];
    }
  }

  /** `str.split()` returns the words of a layout, whatever its separators. */
  lemma {:induction false} SplitLayout(lead: string, words: seq<string>, gaps: seq<string>)
    requires IsLayout(lead, words, gaps)
    ensures Split(Layout(lead, words, gaps)) == words
    decreases |words|
  {
    if words == [] {
      SplitAfterGap(lead, []);
      assert lead + [] == lead;
    } else {
      assert IsLayout(gaps[0], words[1..], gaps[1..]);
      SplitLayout(gaps[0], words[1..], gaps[1..]);
      var rest := Layout(gaps[0], words[1..], gaps[1..]);
      LayoutStartsWithGap(gaps[0], words[1..], gaps[1..]);
      SplitWordBefore(words[0], rest);
      SplitAfterGap(lead, words[0] + rest);
      assert lead + words[0] + rest == lead + (words[0] + rest);
      assert [words[0]] + words[1..] == words;
    }
  }

  /** Every string has a layout, so `SplitLayout` describes `str.split()` on
      any input. */
  lemma {:induction false} LayoutOf(s: string) returns (lead: string, words: seq<string>, gaps: seq<string>)
    ensures IsLayout(lead, words, gaps) && Layout(lead, words, gaps) == s
    ensures s != [] && IsSpace(s[0]) ==> lead != []
    decreases |s|
  {
    if s == [] {
      lead, words, gaps := "", [], [];
    } else if IsSpace(s[0]) {
      var l, ws, gs := LayoutOf(s[1..]);
      lead, words, gaps := [s[0]] + l, ws, gs;
      if ws != [] {
        assert Layout(lead, words, gaps) == [s[0]] + (l + ws[0] + Layout(gs[0], ws[1..], gs[1..]));
      }
      assert s == [s[0]] + s[1..];
    } else {
      var n := WordLength(s);
      var w := s[..n];
      var l, ws, gs := LayoutOf(s[n..]);
      lead, words, gaps := "", [w] + ws, [l] + gs;
      assert IsWord(w);
      if ws != [] {
        assert |Layout(l, ws, gs)| >= |ws[0]| > 0;
        assert s[n..][0] == s[n];
      }
      assert words[1..] == ws && gaps[1..] == gs;
      assert Layout(lead, words, gaps) == "" + w + Layout(l, ws, gs);
      assert s == w + s[n..];
    }
  }

  /** Python's `round(n / 200)` for a non-negative integer `n`: the nearest
      integer, and the even one of the two when `n / 200` lies halfway.
      Stated against 100, half of the divisor, on the remainder. */
  function RoundPer200(n: nat): (r: nat)
    ensures 2 * n <= 400 * r + 200 && 400 * r <= 2 * n + 200
    ensures (2 * n == 400 * r + 200 || 400 * r == 2 * n + 200) ==> r % 2 == 0
  {
    var q, m := n / 200, n % 200;
    if m < 100 then q
    else if m > 100 then q + 1
    else if q % 2 == 0 then q
    else q + 1
  }

  /** The contract of RoundPer200 pins its result down: no other integer is
      as close to `n / 200` with the same tie-breaking. */
  lemma RoundPer200Unique(n: nat, r': nat)
    requires 2 * n <= 400 * r' + 200 && 400 * r' <= 2 * n + 200
    requires (2 * n == 400 * r' + 200 || 400 * r' == 2 * n + 200) ==> r' % 2 == 0
    ensures r' == RoundPer200(n)
  {
  }
}

=== FILE: querysets.dfy ===
/** The query-set operations the views compose: `filter`, `order_by('-field')`
    and the slice `[:n]`, over the rows of a table held as a sequence. */
module QuerySets {

  /** `filter(p)`: the rows that satisfy `p`, in their original order. */
  function Filter<T(!new)>(rows: seq<T>, p: T -> bool): (r: seq<T>)
    ensures forall x :: x in r <==> x in rows && p(x)
    ensures multiset(r) <= multiset(rows)
    ensures |r| <= |rows|
  {
    if rows == [] then []
    else
      assert rows == [rows[0]] + rows[1..];
      if p(rows[0]) then [rows[0]] + Filter(rows[1..], p)
      else Filter(rows[1..], p)
  }

  /** Each passing row appears in the filter as many times as in the table,
      and no other row appears at all. */
  lemma {:induction false} FilterCount<T(!new)>(rows: seq<T>, p: T -> bool, x: T)
    ensures multiset(Filter(rows, p))[x] == if p(x) then multiset(rows)[x] else 0
  {
    if rows != [] {
      FilterCount(rows[1..], p, x);
      assert rows == [rows[0]] + rows[1..];
    }
  }

  /** A filter that every row passes keeps the whole query set. */
  lemma {:induction false} FilterAll<T(!new)>(rows: seq<T>, p: T -> bool)
    requires forall x :: x in rows ==> p(x)
    ensures Filter(rows, p) == rows
  {
    if rows != [] {
      FilterAll(rows[1..], p);
      assert [rows[0]] + rows[1..] == rows;
    }
  }

  /** Filters that agree on every row of the set select the same rows. */
  lemma {:induction false} FilterSame<T(!new)>(rows: seq<T>, p: T -> bool, q: T -> bool)
    requires forall x :: x in rows ==> (p(x) <==> q(x))
    ensures Filter(rows, p) == Filter(rows, q)
  {
    if rows != [] {
      FilterSame(rows[1..], p, q);
    }
  }

  /** Filtering a concatenation filters each part. */
  lemma {:induction false} FilterAppend<T(!new)>(front: seq<T>, back: seq<T>, p: T -> bool)
    ensures Filter(front + back, p) == Filter(front, p) + Filter(back, p)
  {
    if front == [] {
      assert front + back == back;
    } else {
      var whole := front + back;
      assert whole[0] == front[0] && whole[1..] == front[1..] + back;
      FilterAppend(front[1..], back, p);
      if p(front[0]) {
        calc {
          Filter(whole, p);
          [front[0]] + Filter(front[1..] + back, p);
          [front[0]] + (Filter(front[1..], p) + Filter(back, p));
          ([front[0]] + Filter(front[1..], p)) + Filter(back, p);
        }
      }
    }
  }

  /** Rows listed by non-increasing `key`. */
  predicate Descending<T(!new)>(rows: seq<T>, key: T -> int)
  {
    forall i, j :: 0 <= i < j < |rows| ==> key(rows[i]) >= key(rows[j])
  }

  /** A row whose key is at least that of the head of an ordered list can go
      in front of it. */
  lemma ConsDescending<T(!new)>(head: T, rows: seq<T>, key: T -> int)
    requires Descending(rows, key)
    requires rows != [] ==> key(head) >= key(rows[0])
    ensures Descending([head] + rows, key)
  {
    var r := [head] + rows;
    forall i, j | 0 <= i < j < |r|
      ensures key(r[i]) >= key(r[j])
    {
      if i == 0 {
        assert r[j] == rows[j - 1] && key(rows[0]) >= key(rows[j - 1]);
      } else {
        assert r[i] == rows[i - 1] && r[j] == rows[j - 1];
      }
    }
  }

  /** Places `x` into a list already ordered by non-increasing `key`, ahead of
      the rows whose key does not exceed its own. */
  function InsertDescending<T(!new)>(x: T, rows: seq<T>, key: T -> int): (r: seq<T>)
    requires Descending(rows, key)
    ensures Descending(r, key)
    ensures multiset(r) == multiset(rows) + multiset{x}
    ensures |r| == |rows| + 1
    ensures key(r[0]) == key(x) || (rows != [] && key(r[0]) == key(rows[0]))
  {
    if rows == [] || key(x) >= key(rows[0]) then
      ConsDescending(x, rows, key);
      [x] + rows
    else
      assert rows == [rows[0]] + rows[1..];
      var tail := InsertDescending(x, rows[1..], key);
      ConsDescending(rows[0], tail, key);
      [rows[0]] + tail
  }

  /** `order_by('-key')`: the same rows, by non-increasing key. Rows with equal
      keys keep an order the database does not promise; this one is stable. */
  function OrderByDescending<T(!new)>(rows: seq<T>, key: T -> int): (r: seq<T>)
    ensures Descending(r, key)
    ensures multiset(r) == multiset(rows)
    ensures |r| == |rows|
  {
    if rows == [] then []
    else
      assert rows == [rows[0]] + rows[1..];
      InsertDescending(rows[0], OrderByDescending(rows[1..], key), key)
  }

  /** The first `k` rows of a list ordered by non-increasing key: still
      ordered, drawn from the list, and no row left out has a key above that
      of a row kept. */
  lemma TopRows<T(!new)>(rows: seq<T>, key: T -> int, k: nat)
    requires Descending(rows, key) && k <= |rows|
    ensures Descending(rows[..k], key)
    ensures multiset(rows[..k]) <= multiset(rows)
    ensures forall a :: a in rows[..k] ==> a in multiset(rows)
    ensures forall a, b :: a in multiset(rows) - multiset(rows[..k]) && b in rows[..k] ==> key(a) <= key(b)
  {
    assert rows == rows[..k] + rows[k..];
    assert multiset(rows) == multiset(rows[..k]) + multiset(rows[k..]);
    forall a, b | a in multiset(rows) - multiset(rows[..k]) && b in rows[..k]
      ensures key(a) <= key(b)
    {
      assert a in rows[k..];
      var m :| 0 <= m < |rows| - k && rows[k..][m] == a;
      var i :| 0 <= i < k && rows[..k][i] == b;
      assert rows[i] == b && rows[k + m] == a;
    }
  }
}

=== FILE: serializers.dfy ===
/** How articles and categories are shaped into responses: image URLs, the
    SEO bundle of the detail view, the category's article count, and the
    create path of the write serializer. */
module Serializers {
  import opened Common
  import opened Models
  import QuerySets

  /** The request in the serializer context; only `build_absolute_uri` is
      used, and its behaviour belongs to the web framework. */
  datatype Request = Request(buildAbsoluteUri: string -> string)

  /** An image reference turned into a URL: none without an image, the
      absolute URI when a request is in the context, the stored URL otherwise. */
  function ImageUrl(image: Option<Image>, request: Option<Request>): Option<string>
  {
    match image
    case None => None
    case Some(img) =>
      if request.Some? then Some(request.value.buildAbsoluteUri(img.url)) else Some(img.url)
  }

  /** `get_featured_image_url` (list and detail serializers alike). */
  function FeaturedImageUrl(a: ArticleRecord, request: Option<Request>): (url: Option<string>)
    ensures url.None? <==> a.featuredImage.None?
    ensures a.featuredImage.Some? && request.None? ==> url == Some(a.featuredImage.value.url)
    ensures a.featuredImage.Some? && request.Some? ==>
      url == Some(request.value.buildAbsoluteUri(a.featuredImage.value.url))
  {
    ImageUrl(a.featuredImage, request)
  }

  /** `get_og_image_url`: the SEO image resolved the same way. It is absent
      only when both images are, and it is the featured image's URL whenever
      there is no Open Graph image. */
  function OgImageUrl(a: ArticleRecord, request: Option<Request>): (url: Option<string>)
    ensures url.None? <==> a.ogImage.None? && a.featuredImage.None?
    ensures a.ogImage.None? ==> url == FeaturedImageUrl(a, request)
    ensures a.ogImage.Some? && request.None? ==> url == Some(a.ogImage.value.url)
    ensures a.ogImage.Some? && request.Some? ==>
      url == Some(request.value.buildAbsoluteUri(a.ogImage.value.url))
  {
    ImageUrl(SeoImage(a), request)
  }

  /** Python's `x or y` on two strings. */
  function Or(x: string, y: string): string
  {
    if x != "" then x else y
  }

  /** The first non-empty string of `xs`, or the empty string when there is none. */
  function FirstNonEmpty(xs: seq<string>): (r: string)
    ensures r == "" <==> forall i :: 0 <= i < |xs| ==> xs[i] == ""
    ensures r != "" ==> exists i :: 0 <= i < |xs| && xs[i] == r && forall j :: 0 <= j < i ==> xs[j] == ""
  {
    if xs == [] then ""
    else if xs[0] != "" then xs[0]
    else
      var rest := FirstNonEmpty(xs[1..]);
      assert forall i :: 1 <= i < |xs| ==> xs[i] == xs[1..][i - 1];
      rest
  }

  /** The `seo` object of the detail view. */
  datatype SeoBundle = SeoBundle(
    metaTitle: string,
    metaDescription: string,
    metaKeywords: string,
    ogTitle: string,
    ogDescription: string,
    ogImage: Option<string>)

  /** `get_seo`: each text is the first non-empty of its fallback chain
      (ending with the title or the excerpt), the keywords are passed through
      and the image is the resolved Open Graph image URL. */
  function GetSeo(a: ArticleRecord, request: Option<Request>): (seo: SeoBundle)
    ensures seo.metaTitle == FirstNonEmpty([a.metaTitle, a.title])
    ensures seo.metaDescription == FirstNonEmpty([a.metaDescription, a.excerpt])
    ensures seo.metaKeywords == a.metaKeywords
    ensures seo.ogTitle == FirstNonEmpty([a.ogTitle, a.metaTitle, a.title])
    ensures seo.ogDescription == FirstNonEmpty([a.ogDescription, a.metaDescription, a.excerpt])
    ensures seo.ogImage == OgImageUrl(a, request)
  {
    SeoBundle(
      Or(a.metaTitle, a.title),
      Or(a.metaDescription, a.excerpt),
      a.metaKeywords,
      Or(Or(a.ogTitle, a.metaTitle), a.title),
      Or(Or(a.ogDescription, a.metaDescription), a.excerpt),
      OgImageUrl(a, request))
  }

  /** On a record written by save() the read-time fallbacks never fire: the
      bundle repeats the stored SEO columns. */
  lemma SeoOfSavedArticle(a: ArticleRecord, now: Timestamp, slugify: string -> string, request: Option<Request>)
    ensures var b := SaveRules(a, now, slugify);
      var seo := GetSeo(b, request);
      && seo.metaTitle == b.metaTitle && seo.metaDescription == b.metaDescription
      && seo.ogTitle == b.ogTitle && seo.ogDescription == b.ogDescription
  {
    SaveMetaFields(a, now, slugify);
    SaveOgChain(a, now, slugify);
  }

  /** `get_article_count`: how many of the category's articles have the
      published status. */
  function ArticleCount(category: CategoryRecord, rows: seq<ArticleRecord>): (n: nat)
    ensures n <= |RelatedArticles(category.id, rows)|
    ensures n == 0 <==> forall a :: a in rows ==> !(category.id in a.categories && a.status == Published)
  {
    var published := QuerySets.Filter(RelatedArticles(category.id, rows), HasPublishedStatus);
    assert published != [] ==> published[0] in published;
    |published|
  }

  /** A new row adds one to the count exactly when it is published and in the
      category; drafts and archived articles never count. */
  lemma ArticleCountAppend(category: CategoryRecord, rows: seq<ArticleRecord>, a: ArticleRecord)
    ensures ArticleCount(category, rows + [a]) ==
      ArticleCount(category, rows) + if category.id in a.categories && a.status == Published then 1 else 0
  {
    var inCategory := (x: ArticleRecord) => category.id in x.categories;
    QuerySets.FilterAppend(rows, [a], inCategory);
    var related := QuerySets.Filter(rows, inCategory);
    var added := QuerySets.Filter([a], inCategory);
    QuerySets.FilterAppend(related, added, HasPublishedStatus);
  }

  /** The fields the write serializer accepts. `author` and `view_count` are
      not among them; `categories` may be missing from the payload. */
  datatype ArticleInput = ArticleInput(
    title: string,
    slug: string,
    excerpt: string,
    content: string,
    featuredImage: Option<Image>,
    categories: Option<seq<CategoryId>>,
    status: Status,
    publishedDate: Option<Timestamp>,
    metaTitle: string,
    metaDescription: string,
    metaKeywords: string,
    ogTitle: string,
    ogDescription: string,
    ogImage: Option<Image>)

  /** `Article(**validated_data)` with the author injected: no categories yet
      and the default view count. */
  function Unsaved(data: ArticleInput, author: UserId): ArticleRecord
  {
    ArticleRecord(data.title, data.slug, data.excerpt, data.content, data.featuredImage,
      author, {}, data.status, data.publishedDate, data.metaTitle, data.metaDescription,
      data.metaKeywords, data.ogTitle, data.ogDescription, data.ogImage, 0)
  }

  /** `validated_data.pop('categories', [])`, as the set the relation ends up with. */
  function CategorySet(categories: Option<seq<CategoryId>>): set<CategoryId>
  {
    if categories.Some? then set c | c in categories.value else {}
  }

  /** The row `create` leaves behind: saved, authored by the requesting user
      whatever the payload held, linked to exactly the supplied categories,
      with no views yet. */
  function CreatedRecord(data: ArticleInput, author: UserId, now: Timestamp, slugify: string -> string): (a: ArticleRecord)
    ensures a.author == author && a.viewCount == 0
    ensures forall c :: c in a.categories <==> data.categories.Some? && c in data.categories.value
    ensures a.title == data.title && a.content == data.content && a.status == data.status
    ensures a.slug == if data.slug == "" then slugify(data.title) else data.slug
    ensures IsPublished(a) <==> data.status == Published
  {
    SaveSlug(Unsaved(data, author), now, slugify);
    SaveIsPublished(Unsaved(data, author), now, slugify);
    SaveRules(Unsaved(data, author), now, slugify).(categories := CategorySet(data.categories))
  }

  /** Some row of the table already uses `slug`. */
  predicate SlugTaken(rows: seq<ArticleRecord>, slug: string)
  {
    exists i :: 0 <= i < |rows| && rows[i].slug == slug
  }

  /** `ArticleCreateUpdateSerializer.create` with the requesting user: builds
      and saves the article, inserts the row and then sets its categories.
      A taken slug is one `Conflict`, whether the client supplied it (the
      unique-slug validator refuses it before create runs) or save()
      derived it (the insert fails on the unique column). */
  method Create(table: ArticleTable, data: ArticleInput, user: UserId, now: Timestamp, slugify: string -> string)
    returns (result: Result<ArticleRecord>)
    requires table.Valid()
    modifies table
    ensures table.Valid()
    ensures result.Err? <==> SlugTaken(old(table.rows), CreatedRecord(data, user, now, slugify).slug)
    ensures result.Err? ==> result.error == Conflict && table.rows == old(table.rows)
    ensures result.Ok? ==>
      result.value == CreatedRecord(data, user, now, slugify) && table.rows == old(table.rows) + [result.value]
  {
    var categories := if data.categories.Some? then data.categories.value else [];
    var article := new Article.FromRecord(Unsaved(data, user));
    article.Save(now, slugify);
    if exists i :: 0 <= i < |table.rows| && table.rows[i].slug == article.slug {
      return Err(Conflict);
    }
    table.rows := table.rows + [article.Record()];
    article.categories := set c | c in categories;
    table.rows := table.rows[|table.rows| - 1 := article.Record()];
    result := Ok(article.Record());
  }
}

=== FILE: views.dfy ===
/** The request handlers of the two view sets, as far as they decide which
    rows a caller gets: the visibility filter of `get_queryset`, `retrieve`
    with its view counting, and the `published`, `featured`, `my_articles`
    and category `articles` actions. Search, filter parameters, ordering
    parameters and pagination are applied on top by the framework. */
module Views {
  import opened Common
  import opened Models
  import opened QuerySets

  /** The principal behind a request. */
  datatype Caller = Anonymous | User(id: UserId, isStaff: bool)

  /** The filter `get_queryset` applies, branch by branch: anonymous callers
      get published rows, non-staff users their own rows and published ones,
      staff every row. */
  predicate InQueryset(caller: Caller, a: ArticleRecord)
  {
    if caller.Anonymous? then a.status == Published
    else if !caller.isStaff then a.author == caller.id || a.status == Published
    else true
  }

  /** `ArticleViewSet.get_queryset`. */
  function GetQueryset(caller: Caller, rows: seq<ArticleRecord>): (r: seq<ArticleRecord>)
    ensures forall a :: a in r <==> a in rows && InQueryset(caller, a)
    ensures multiset(r) <= multiset(rows)
  {
    Filter(rows, (a: ArticleRecord) => InQueryset(caller, a))
  }

  /** Read access to one article, stated per article: anyone may read a
      published article; an authenticated user may also read their own, and
      staff may read everything. */
  predicate CanRead(caller: Caller, a: ArticleRecord)
  {
    a.status == Published || (caller.User? && (caller.isStaff || caller.id == a.author))
  }

  /** The query set is exactly the rows the caller may read. */
  lemma GetQuerysetIsCanRead(caller: Caller, rows: seq<ArticleRecord>)
    ensures forall a :: a in GetQueryset(caller, rows) <==> a in rows && CanRead(caller, a)
  {
  }

  /** Anonymous callers see exactly the published rows. */
  lemma AnonymousSeesPublished(rows: seq<ArticleRecord>)
    ensures forall a :: a in GetQueryset(Anonymous, rows) <==> a in rows && a.status == Published
  {
  }

  /** A non-staff user sees a row iff they wrote it or it is published, and
      never another user's draft or archived article. */
  lemma UserSeesOwnAndPublished(id: UserId, rows: seq<ArticleRecord>)
    ensures forall a :: a in GetQueryset(User(id, false), rows) <==>
      a in rows && (a.author == id || a.status == Published)
    ensures forall a :: a in rows && a.author != id && a.status != Published ==>
      a !in GetQueryset(User(id, false), rows)
  {
  }

  /** Staff get the table unfiltered, in its own order. */
  lemma StaffSeesAll(id: UserId, rows: seq<ArticleRecord>)
    ensures GetQueryset(User(id, true), rows) == rows
  {
    FilterAll(rows, (a: ArticleRecord) => InQueryset(User(id, true), a));
  }

  /** The index of the row `get_object` finds: the first one of the caller's
      query set with this slug, or none. */
  function FindVisible(caller: Caller, rows: seq<ArticleRecord>, slug: string): (found: Option<nat>)
    ensures found.Some? ==>
      found.value < |rows| && rows[found.value].slug == slug && CanRead(caller, rows[found.value])
    ensures found.None? <==> forall a :: a in rows && InQueryset(caller, a) ==> a.slug != slug
  {
    if rows == [] then None
    else if rows[0].slug == slug && InQueryset(caller, rows[0]) then Some(0)
    else
      match FindVisible(caller, rows[1..], slug)
      case None => None
      case Some(i) => Some(i + 1)
  }

  /** `ArticleViewSet.retrieve`. An article the caller cannot see is not
      found and nothing is written; otherwise see ShowArticle. */
  method Retrieve(table: ArticleTable, caller: Caller, slug: string, now: Timestamp, slugify: string -> string)
    returns (result: Result<ArticleRecord>)
    requires table.Valid()
    modifies table
    ensures table.Valid()
    ensures FindVisible(caller, old(table.rows), slug).None? ==>
      result == Err(NotFound) && table.rows == old(table.rows)
    ensures FindVisible(caller, old(table.rows), slug).Some? ==>
      var i := FindVisible(caller, old(table.rows), slug).value;
      result.Ok? && Shown(old(table.rows), i, table.rows, result.value, now, slugify)
  {
    var found := FindVisible(caller, table.rows, slug);
    if found.None? {
      return Err(NotFound);
    }
    var response := ShowArticle(table, found.value, now, slugify);
    result := Ok(response);
  }

  /** The row with one more view. */
  function Viewed(row: ArticleRecord): (r: ArticleRecord)
    ensures r.viewCount == row.viewCount + 1
    ensures r == row.(viewCount := r.viewCount)
  {
    row.(viewCount := row.viewCount + 1)
  }

  /** What showing row `i` does: a published row is stored with one more
      view (no other column is written, no other row changes) and the
      response is that row after the in-memory save(); any other row is
      answered as stored and nothing is written. */
  ghost predicate Shown(before: seq<ArticleRecord>, i: nat, after: seq<ArticleRecord>, response: ArticleRecord,
                        now: Timestamp, slugify: string -> string)
    requires i < |before|
  {
    if before[i].status == Published then
      after == before[i := Viewed(before[i])] && response == SaveRules(Viewed(before[i]), now, slugify)
    else
      after == before && response == before[i]
  }

  /** The part of retrieve after get_object found row `i`: `view_count += 1`
      and `save(update_fields=['view_count'])` for a published article. */
  method ShowArticle(table: ArticleTable, i: nat, now: Timestamp, slugify: string -> string)
    returns (response: ArticleRecord)
    requires table.Valid() && i < |table.rows|
    modifies table
    ensures table.Valid()
    ensures Shown(old(table.rows), i, table.rows, response, now, slugify)
  {
    var row := table.rows[i];
    var instance := new Article.FromRecord(row);
    if instance.status == Published {
      instance.viewCount := instance.viewCount + 1;
      assert instance.Record() == Viewed(row);
      instance.Save(now, slugify);
      table.rows := table.rows[i := row.(viewCount := instance.viewCount)];
    }
    response := instance.Record();
  }

  /** The in-memory save() that retrieve runs only raises the view count; it
      derives nothing else. */
  lemma SaveKeepsViewCountApart(a: ArticleRecord, n: nat, now: Timestamp, slugify: string -> string)
    ensures SaveRules(a.(viewCount := n), now, slugify) == SaveRules(a, now, slugify).(viewCount := n)
  {
    assert SlugRule(a.(viewCount := n), slugify) == SlugRule(a, slugify).(viewCount := n);
  }

  /** For a row that save() wrote, retrieve answers with exactly the row it
      stores: the derivations its in-memory save() repeats change nothing. */
  lemma RetrieveRespondsWithStoredRow(original: ArticleRecord, savedAt: Timestamp, now: Timestamp, slugify: string -> string)
    ensures var row := SaveRules(original, savedAt, slugify);
      SaveRules(Viewed(row), now, slugify) == Viewed(row)
  {
    var row := SaveRules(original, savedAt, slugify);
    SaveKeepsViewCountApart(row, row.viewCount + 1, now, slugify);
    SaveIdempotent(original, savedAt, now, slugify);
  }

  /** The `published` action: published rows, whoever asks. */
  function PublishedArticles(rows: seq<ArticleRecord>): (r: seq<ArticleRecord>)
    ensures forall a :: a in r <==> a in rows && a.status == Published
  {
    Filter(rows, HasPublishedStatus)
  }

  /** The `published` action lists what an anonymous caller's query set lists,
      and it lies within every caller's query set. */
  lemma PublishedIsAnonymousView(caller: Caller, rows: seq<ArticleRecord>)
    ensures PublishedArticles(rows) == GetQueryset(Anonymous, rows)
    ensures forall a :: a in PublishedArticles(rows) ==> a in GetQueryset(caller, rows)
  {
    FilterSame(rows, HasPublishedStatus, (a: ArticleRecord) => InQueryset(Anonymous, a));
  }

  /** The `featured` action: the published rows by descending view count, the
      first five of them. At most five, all published, in view-count order,
      and no published article left out has more views than one listed. */
  function Featured(rows: seq<ArticleRecord>): (r: seq<ArticleRecord>)
    ensures |r| == if |PublishedArticles(rows)| < 5 then |PublishedArticles(rows)| else 5
    ensures forall a :: a in r ==> a in rows && a.status == Published
    ensures Descending(r, ViewCount)
    ensures multiset(r) <= multiset(PublishedArticles(rows))
    ensures forall a, b :: a in multiset(PublishedArticles(rows)) - multiset(r) && b in r ==>
      a.viewCount <= b.viewCount
  {
    var published := PublishedArticles(rows);
    var ordered := OrderByDescending(published, ViewCount);
    var k := if |ordered| < 5 then |ordered| else 5;
    TopRows(ordered, ViewCount, k);
    ordered[..k]
  }

  /** The `my_articles` action: refused without authentication; otherwise
      every article the caller wrote, of any status, and nothing else. */
  function MyArticles(caller: Caller, rows: seq<ArticleRecord>): (r: Result<seq<ArticleRecord>>)
    ensures r.Err? <==> caller.Anonymous?
    ensures r.Err? ==> r.error == NotAuthenticated
    ensures r.Ok? ==> forall a :: a in r.value <==> a in rows && a.author == caller.id
    ensures r.Ok? ==> forall a :: a in r.value ==> a in GetQueryset(caller, rows)
  {
    if caller.Anonymous? then Err(NotAuthenticated)
    else Ok(Filter(GetQueryset(caller, rows), (a: ArticleRecord) => a.author == caller.id))
  }

  /** The category `get_object` finds by slug; categories have no visibility rule. */
  function FindCategory(categories: seq<CategoryRecord>, slug: string): (found: Option<CategoryRecord>)
    ensures found.Some? ==> found.value in categories && found.value.slug == slug
    ensures found.None? <==> forall c :: c in categories ==> c.slug != slug
  {
    if categories == [] then None
    else if categories[0].slug == slug then Some(categories[0])
    else FindCategory(categories[1..], slug)
  }

  /** `CategoryViewSet.articles`: not found for an unknown category slug,
      otherwise the published articles linked to that category. */
  function CategoryArticles(categories: seq<CategoryRecord>, rows: seq<ArticleRecord>, slug: string)
    : (r: Result<seq<ArticleRecord>>)
    ensures r.Err? <==> FindCategory(categories, slug).None?
    ensures r.Err? ==> r.error == NotFound
    ensures r.Ok? ==> forall a :: a in r.value <==>
      a in rows && a.status == Published && FindCategory(categories, slug).value.id in a.categories
  {
    match FindCategory(categories, slug)
    case None => Err(NotFound)
    case Some(category) => Ok(Filter(RelatedArticles(category.id, rows), HasPublishedStatus))
  }
}
